=== FILE: README.md ===
# ImageProcess tiling pipeline in Dafny

ImageProcess is a small C# program. It reads cat and dog pictures from two
folders and cuts them into batches. It shuffles each batch and tiles every
group of four pictures into a 200 x 200 grey canvas with 1% salt-and-pepper
noise. Each canvas is also serialized as a row-keyed matrix of intensities
rounded to three decimals.

This project models the three core classes:

- `ImageLoader`: the extension filter, the Skip/Take window and the
  index-aligned result arrays.
- `ImageTiler`: validation, grid geometry, the per-pixel grey rule, row-major
  placement with its size guard, noise injection and the matrix form.
- `BatchProcessor`: the batch plan, the per-batch windows, the key-order
  shuffle and the cut into groups of four.

Modules, one per file:

| file | module | models |
|---|---|---|
| wrappers.dfy | Wrappers | `Option` and `Result` |
| raster.dfy | Raster | colour and grey images as subset types (exactly `height` rows of `width` pixels); the external resize routine as an oracle |
| arith.dfy | Arith | integer minimum and maximum; small multiplication and division facts |
| desaturate.dfy | Desaturate | the grey rule of `ProcessImage` |
| grid.dfy | Grid | `Ceiling(Sqrt(n))` as an integer function; cell size and row-major cell positions |
| noise.dfy | Noise | the noise count and the draw-by-draw overwrites |
| serializer.dfy | Serializer | `ConvertGrayscaleMatToJson` as exact thousandths, and its inverse |
| tiler.dfy | Tiler | `CreateTiledMatImage`, `ProcessImage`, `CreateTiledImageWithJson` |
| loader.dfy | Loader | `LoadImagesFromFolder`, `LoadImagesFromFiles`, `Path.GetExtension`, LINQ `Skip`/`Take` |
| shuffle.dfy | Shuffle | `OrderBy(x => random.NextDouble())` as a stable sort on drawn keys |
| batch.dfy | Batch | `ProcessAllImages`, `ProcessBatch`, `ProcessImages` |

Everything the program gets from outside becomes a parameter:

- a directory listing (`None` when the folder is missing);
- file existence;
- decoding (`Image.FromFile`), with `None` for a file that fails to load;
- the resize routine;
- the freshly allocated canvas;
- the noise draws of the tiler's unseeded generator;
- the key stream of the batch processor's seeded generator.

Placement keeps the guard of `CreateTiledMatImage` exactly as written. A tile
is written only when the input picture's height AND its width are both greater
than the cell HEIGHT (`ImageTiler.cs` line 93). Pixels that no accepted tile
covers keep whatever the canvas held. `CreateTiledMatImage` never sets the new
`Mat`'s content, so the canvas is a parameter rather than a white image.

A batch count of zero is modelled as the `DivideByZero` error. In the program
it is the exception thrown by `totalCatImages / N`. A batch size of zero gives
the same error one line earlier. The count is zero whenever the two folders
together hold fewer than 2|B| files, for a negative size B as well, so
`MakePlan(150, 0, -100)` is `DivideByZero`. A negative size with at least
2|B| files gives a negative count, and then no batch runs.

## Model

| member | source | states |
|---|---|---|
| Raster.Resize | src/ImageTiler.cs:153-156 | The resize either fails (absent result) or yields an image of exactly the requested width and height whose every pixel is the routine's sample of the input at that position. |
| Desaturate.DesaturatePixel | src/ImageTiler.cs:135-146 | Both branches of the grey rule give the darkest of the three channels: no larger than any channel and equal to one of them. |
| Desaturate.DesaturateIsDarkestChannel | src/ImageTiler.cs:135-146 | The two-branch rule equals the plain minimum of red, green and blue. A pixel whose channels agree gives its green value. |
| Desaturate.DesaturateImage | src/ImageTiler.cs:128-148 | The grey image has the colour image's size, and each grey pixel is the darkest channel of the matching colour pixel. |
| Desaturate.DesaturateKeepsGray | src/ImageTiler.cs:143-146 | A source pixel whose three channels are equal keeps its value. |
| Grid.CeilSqrt | src/ImageTiler.cs:72 | The grid side g satisfies g*g >= n and (g-1)^2 < n: the least side whose square holds n images. |
| Grid.CeilSqrtIsLeast | src/ImageTiler.cs:72 | Any k with k*k >= n is at least the grid side. |
| Grid.CeilSqrtUnique | src/ImageTiler.cs:72 | The two bounds determine the side uniquely, so the integer form equals Ceiling(Sqrt(n)). |
| Grid.GridSizeExamples | src/ImageTiler.cs:72 | 1 image gives side 1; 2, 3 and 4 give side 2; 5 and 9 give 3; 10 gives 4. |
| Grid.SmallGroupGrid | src/ImageTiler.cs:72 | A group of one to four images gets a 1 x 1 or 2 x 2 grid. |
| Grid.MakeLayout | src/ImageTiler.cs:72-74 | The side holds every image and is least. Cell width and height are the canvas size divided by the side, so side cells fill the canvas up to a strip narrower than side pixels. |
| Grid.CellSizeBounds | src/ImageTiler.cs:73-74 | Integer division of the canvas by the side leaves a remainder smaller than the side, in both directions. |
| Grid.CellFits | src/ImageTiler.cs:84-87 | Cell i (row i / side, column i % side) lies inside the canvas whenever i < side*side. |
| Grid.CellOf | src/ImageTiler.cs:84-87 | When a pixel has an owner cell, that cell exists (index < side*side) and contains the pixel. |
| Grid.InCellOwner | src/ImageTiler.cs:84-87 | A pixel inside cell i has owner i. |
| Grid.CellsDisjoint | src/ImageTiler.cs:84-87 | Two cells that contain the same pixel are the same cell: row-major cells never overlap. |
| Noise.PixelsToAffect | src/ImageTiler.cs:177-178 | The number of overwrites is the pixel count times the level, truncated: k*den <= W*H*num < (k+1)*den, and never more than W*H. |
| Noise.PixelsToAffectEnds | src/ImageTiler.cs:177-178 | Level 0 affects no pixel; level 1 affects W*H. |
| Noise.DrawValue | src/ImageTiler.cs:189 | A draw writes 0 or 255, and 0 exactly when the generator's `Next(2)` gave 0. |
| Noise.SetPixel | src/ImageTiler.cs:191 | One overwrite changes exactly the chosen pixel to the drawn value and keeps the size. |
| Noise.ApplyDraws | src/ImageTiler.cs:183-192 | Applying the draws keeps the image size. What each pixel ends with is stated by UntouchedPixelKept, LastDrawWins and NoiseValues. |
| Noise.UntouchedPixelKept | src/ImageTiler.cs:183-192 | A pixel that no draw selects keeps its value. |
| Noise.LastDrawWins | src/ImageTiler.cs:183-192 | A selected pixel ends with the value of the last draw that selected it. |
| Noise.NoiseValues | src/ImageTiler.cs:185-191 | Every pixel after noise is its old value, 0 (pepper) or 255 (salt). |
| Noise.SaltAndPepper | src/ImageTiler.cs:171-197 | The noisy image has the same size; level 0 changes nothing; pixels that none of the first PixelsToAffect draws select are kept. |
| Noise.SaltAndPepperDraw | src/ImageTiler.cs:177-192 | Among the first PixelsToAffect draws, one that no later one of them overrides leaves its salt or pepper value on its pixel. |
| Noise.SaltAndPepperValues | src/ImageTiler.cs:177-192 | Every pixel of the noisy image is its old value, 0 or 255. |
| Serializer.Thousandths | src/ImageTiler.cs:49 | The stored value t is in 0..1000 and is the nearest integer to 1000*v/255 (never a tie); 0 maps to 0 and 255 to 1000. |
| Serializer.ThousandthsIsNearest | src/ImageTiler.cs:49 | Only one integer lies within half a thousandth of v/255, so the rounding is determined. |
| Serializer.ThousandthsRoundTrip | src/ImageTiler.cs:49 | Reading a three-decimal value back as round(t*255/1000) recovers the byte exactly. |
| Serializer.Serialize | src/ImageTiler.cs:33-59 | One row per canvas row, keyed by its index, holding one value per pixel. Each value is the rounded intensity / 255. |
| Serializer.SerializeRoundTrip | src/ImageTiler.cs:41-54 | Deserializing the matrix gives back the canvas: the matrix loses no information. |
| Tiler.ProcessImage | src/ImageTiler.cs:118-166 | Processing yields a tile of exactly the cell size, or nothing exactly when the resize of the grey image fails; every tile pixel is sampled from the desaturated image, not the colour one. |
| Tiler.Blit | src/ImageTiler.cs:96-100 | Copying a tile into its region rewrites exactly the region's pixels with the tile's pixels and leaves every other pixel alone. |
| Tiler.TileAt | src/ImageTiler.cs:82-103 | Cell i receives a tile iff the source is present, processing succeeds, and the source's height and width are both greater than the cell height; the tile has the cell size. |
| Tiler.Place | src/ImageTiler.cs:80-104 | Placement keeps the canvas size. Its per-pixel result is stated by PlaceMatchesExpected. |
| Tiler.PlaceStep | src/ImageTiler.cs:80-104 | One loop iteration changes only the pixels of its own cell, and only when that cell receives a tile. |
| Tiler.AgreesUpTo | src/ImageTiler.cs:80-104 | After each iteration, each pixel equals the independent reference: the tile of its owner cell if that cell was accepted, else the initial canvas. |
| Tiler.PlaceMatchesExpected | src/ImageTiler.cs:80-104 | Placement of the first k sources agrees with the reference at every pixel. |
| Tiler.PlacedCellPixel | src/ImageTiler.cs:89-101 | A pixel of an accepted cell holds the matching pixel of that cell's tile. |
| Tiler.PlacedBackgroundPixel | src/ImageTiler.cs:80-104 | A pixel outside every accepted cell keeps the canvas's initial value: missing images, failed processing, the guard, and the remainder strips. |
| Tiler.CreateTiled | src/ImageTiler.cs:64-113 | Fails iff the source list is empty (EmptySources) or the level is outside [0, 1] (NoiseLevelOutOfRange), in that order; on success the image has the canvas's size. |
| Tiler.CreateTiledNoNoise | src/ImageTiler.cs:77-112 | Without noise every output pixel is the owner cell's tile pixel when that cell was accepted, else the initial canvas pixel. |
| Tiler.CreateTiledPixel | src/ImageTiler.cs:77-112 | At any accepted level, a pixel that no used draw selects is the owner cell's tile pixel when that cell was accepted, else the initial canvas pixel. |
| Tiler.CreateTiledDrawnPixel | src/ImageTiler.cs:77-112 | At any accepted level, a used draw that no later used draw overrides decides its pixel: 0 or 255. |
| Tiler.CreateTiledValues | src/ImageTiler.cs:77-112 | Every output pixel is the placed value of the reference, 0 or 255. |
| Tiler.CreateTiledBackground | src/ImageTiler.cs:77-112 | With noise, a pixel outside every accepted cell that no used draw selects keeps the canvas's value. |
| Tiler.CreateTiledWithMatrix | src/ImageTiler.cs:19-28 | Fails exactly when, and with the error with which, the tiler fails. Otherwise it returns the tiler's image and that image's serialized matrix, which has one row per canvas row and deserializes back to the image. |
| Loader.ExtensionFrom | src/ImageLoader.cs:31 | Scanning back from position i, a non-empty result is a suffix of the path that starts with a dot, has at least one more character, and holds no further dot or separator. |
| Loader.ExtensionIsLastDot | src/ImageLoader.cs:31 | A dot that is not last and is followed by no dot or separator starts the extension. |
| Loader.NoDotNoExtension | src/ImageLoader.cs:31 | A file name (after its last separator) with no dot has an empty extension. |
| Loader.Extension | src/ImageLoader.cs:31 | A non-empty extension is a suffix of the path that starts with a dot, has at least one more character, and holds no further dot or separator. |
| Loader.IsSupported | src/ImageLoader.cs:31 | The filter predicate; SupportedIffSuffix gives its independent reading. |
| Loader.SupportedIffSuffix | src/ImageLoader.cs:16-31 | A path is accepted iff it ends, ignoring letter case, with one of .jpg, .jpeg, .png, .bmp and .gif. |
| Loader.SupportIgnoresCase | src/ImageLoader.cs:16-31 | Two paths equal after lower-casing are accepted or rejected together. |
| Loader.UpperCaseAccepted | src/ImageLoader.cs:16-31 | A Windows path ending in ".JPG" is accepted. |
| Loader.OnlyLastExtensionCounts | src/ImageLoader.cs:16-31 | "photo.jpg.bak" is rejected: only the last extension counts. |
| Loader.DotInFolderNameIgnored | src/ImageLoader.cs:16-31 | A dot in a folder name is not an extension: "pics.jpg\\readme" is rejected. |
| Loader.Filter | src/ImageLoader.cs:31 | A file is kept iff it is in the listing and has a supported extension. |
| Loader.FilterAppend | src/ImageLoader.cs:31 | Filtering keeps listing order: filtering a concatenation concatenates the filtered parts. |
| Loader.Skip | src/ImageLoader.cs:32 | Skip drops the first max(n, 0) elements and keeps the order of the rest. |
| Loader.Take | src/ImageLoader.cs:33 | Take keeps the first min(max(n, 0), length) elements. |
| Loader.Select | src/ImageLoader.cs:30-34 | The selected files are the window starting at max(skip, 0) of the filtered listing, of length min(max(max, 0), remaining); each is a supported file of the listing. |
| Loader.LoadFromFolder | src/ImageLoader.cs:25-56 | A missing folder is DirectoryNotFound. Otherwise slot i holds the decode result of the i-th selected file, empty on a decode failure. |
| Loader.LoadFromFiles | src/ImageLoader.cs:63-97 | One slot per path; slot i is empty unless the file exists and its extension is supported, in which case it holds the decode result. |
| Loader.LoadersAgree | src/ImageLoader.cs:25-97 | On the files a folder load selects, all of which exist, the per-file loader fills the same slots. |
| Shuffle.InsertFirst | src/BatchProcessor.cs:55 | Insertion adds exactly one element (as a multiset) to the list. |
| Shuffle.SortByKey | src/BatchProcessor.cs:55 | The sort returns a permutation of its input, ordered by key. |
| Shuffle.SortByKeyItems | src/BatchProcessor.cs:55 | Sorting permutes the carried items. |
| Shuffle.SortedInputUnchanged | src/BatchProcessor.cs:55 | Input already in key order comes back unchanged. |
| Shuffle.OrderByKeys | src/BatchProcessor.cs:55 | The shuffled list has the same elements, each as many times, as the concatenated input, and it is the item column of a key-sorted arrangement of the (key, element) pairs: the elements come out in the order of their drawn keys. |
| Batch.TruncDiv | src/BatchProcessor.cs:35-39 | C# integer division of a non-negative count: remainder in [0, divisor), also for a negative divisor. |
| Batch.MakePlan | src/BatchProcessor.cs:31-39 | Fails with DivideByZero iff the batch size is 0 or the pools hold fewer than 2\|B\| images. A positive size gives N whole double batches, a negative size a negative N, and each per-class count is the whole number of times N fits in that class's pool. |
| Batch.PlanExamples | src/BatchProcessor.cs:31-39 | 1000 cats, 1000 dogs, size 100 give 10 batches of 100 + 100; 50 + 50 with size 100, or size 0, fail. |
| Batch.Slice | src/BatchProcessor.cs:52-53 | The slice of one folder for batch b: slot i holds the decoding of the filtered file at position b*per + i, and it is as long as the loader's window. |
| Batch.WindowsInsidePool | src/BatchProcessor.cs:52-53 | Batch b's window [b*per, (b+1)*per) lies inside the folder's count. |
| Batch.WindowsDisjoint | src/BatchProcessor.cs:52-53 | Windows of two different batches do not overlap. |
| Batch.Chunks | src/BatchProcessor.cs:71-74 | ceil(n/4) groups, each of one to four images, all but the last of exactly four. |
| Batch.ChunksFlatten | src/BatchProcessor.cs:71-74 | The groups, concatenated, are the shuffled list. |
| Batch.TilerGroups | src/BatchProcessor.cs:71-77 | The stepping loop with Skip(i).Take(4) produces exactly these groups. |
| Batch.GroupsAreTileable | src/BatchProcessor.cs:73-77 | Each group gets a grid of side 1 or 2, and the fixed arguments (200 x 200, level 0.01) never make the tiler fail. |
| Batch.ProcessBatch | src/BatchProcessor.cs:50-77 | A batch is its cat slice followed by its dog slice, ordered by the keys read from the stream at the given offset, so a permutation of its two windows' images. Its groups are the chunks of four of that list (only the last shorter), which concatenate back to it. |
| Batch.UnfoldAt | src/BatchProcessor.cs:44-47 | Iteration b of the batch loop sees exactly the results of iterations 0 .. b-1. |
| Batch.UnfoldPrefix | src/BatchProcessor.cs:44-47 | Running fewer iterations gives a prefix of the longer run. |
| Batch.RunBatches | src/BatchProcessor.cs:44-47 | The loop runs exactly n batches. What each holds is stated by RunBatchesContents. |
| Batch.RunBatchesContents | src/BatchProcessor.cs:44-55 | Batch b holds exactly the images of its two windows, ordered by the keys that follow the ones the earlier batches used. |
| Batch.Run | src/BatchProcessor.cs:28-48 | A missing folder is DirectoryNotFound; otherwise the run fails iff the plan does, always with DivideByZero, and runs max(N, 0) batches. |
| Batch.RunContents | src/BatchProcessor.cs:28-77 | Batch b of a successful run is `ProcessBatch` for b at the key offset the earlier batches leave: its two windows' images in key order, cut into groups of four. |

## Left out

- File output is not modelled: the GUID file names, writing the bitmap and the JSON text, and console logging (`LogBatchInfo` and the error messages). They only record the values modelled here.
- JSON text is not modelled: a row's key is kept as the row index, not its decimal string, and the decimal rendering of the values is left out.
- Image decoding (`Image.FromFile`, `new Bitmap`), the `Bitmap` to `Image<Bgr, byte>` conversion and the resize interpolation are parameters. Only their success or failure and the result size are constrained.
- `Parallel.For` over rows is modelled sequentially: each row writes only its own pixels.
- Random number generation is not modelled: the noise draws and the shuffle keys are inputs. For `OrderBy` only the keys' order matters, and the order of equal keys is the stable one.
- Disposal, `using` blocks and the `try`/`finally` in `ProcessBatch` are left out: they release resources and change no value.
- `DisposeImages` (ImageLoader.cs:103-111) is left out for the same reason.
- A `null` source array is left out: a Dafny sequence cannot be null. The empty array is modelled.
- Grid.CeilSqrt: `Math.Ceiling(Math.Sqrt(n))` is computed on doubles; the model uses the exact integer ceiling, which matches for every array size that fits in memory.
- Noise.PixelsToAffect: the level is an exact rational instead of a double, so the truncation of `totalPixels * noiseLevel` is exact.
- Tiler.CreateTiled: a NaN noise level is not representable. In C# both range comparisons (ImageTiler.cs:68) are false for NaN, so it passes validation, and `noiseLevel > 0` (line 107) is false too, so the placed canvas comes back without noise; the model's "fails iff the level is outside [0, 1]" holds only for the rational levels it admits.
- 32-bit overflow is not modelled: `2 * desiredBatchSize`, `totalPixels` and the window offsets `batchStart * catsPerBatch` are unbounded integers.
- Negative output sizes are excluded by the types (`nat` width and height); the batch processor always passes 200 x 200.
- Loader.Lower: `ToLower` is modelled on ASCII letters only.
- Loader.Extension treats both '/' and '\\' as separators and ignores the drive-letter colon, as on Windows.
- `Path.GetExtension`'s rejection of invalid path characters is left out.
- Batch.Run assumes each folder is unchanged during the run and listed in the same order every time: the program lists each folder once for the count (BatchProcessor.cs:31-32) and again in every `LoadImagesFromFolder` call (ImageLoader.cs:30), and `Directory.GetFiles` promises no order, while the model hands one listing per folder to every batch.
- Batch.Run counts every file in each folder (`Directory.GetFiles(...).Length`, BatchProcessor.cs:31-32). The loader counts only supported files, so the windows index the filtered listing and may run past it; then they come back short or empty, as in the program.
- Shuffle.SortedInputUnchanged states stability only for input already in key order, not the general stable-sort characterisation.
- The command-line entry point (Program.cs) is not part of this model.

=== FILE: arith.dfy ===
/** Integer minimum and maximum, and small facts about multiplication and
    division used by the geometry, the noise count and the batch plan. */
module Arith {

  function Min(a: int, b: int): int
  {
    if a <= b then a else b
  }

  function Max(a: int, b: int): int
  {
    if a >= b then a else b
  }

  /** The lemmas below are stated as implications so that a proof can use
      them without first splitting into cases. */
  lemma MulMono(a: int, b: int)
    ensures 0 <= a <= b ==> a * a <= b * b
  {
    MulLe(a, b, a);
    MulLe(a, b, b);
  }

  lemma MulLe(a: int, b: int, c: int)
    ensures a <= b && c >= 0 ==> a * c <= b * c
  {
    assert b * c - a * c == (b - a) * c;
  }

  lemma MulSucc(a: int, c: int)
    ensures (a + 1) * c == a * c + c
  {
  }

  /** The only multiple of t strictly between -t and t is zero. */
  lemma SmallMultiple(d: int, t: int)
    requires t > 0 && -t < d * t < t
    ensures d == 0
  {
    MulLe(1, d, t);
    MulLe(d, -1, t);
  }

  /** x lies between the multiples of t just below and just above it. */
  lemma DivBounds(x: int, t: int)
    requires t > 0
    ensures (x / t) * t <= x < (x / t) * t + t
  {
    assert x == (x / t) * t + x % t;
  }

  /** DivBounds with the multiple written t * (x / t). */
  lemma DivBoundsLeft(x: int, t: int)
    requires t > 0
    ensures t * (x / t) <= x < t * (x / t) + t
  {
    DivBounds(x, t);
    assert t * (x / t) == (x / t) * t;
  }

  /** If c * t <= x < c * t + t then x / t == c. */
  lemma DivFromBounds(x: int, t: int, c: int)
    requires t > 0 && c * t <= x < c * t + t
    ensures x / t == c && x % t == x - c * t
  {
    var q, r := x / t, x % t;
    assert (q - c) * t == x - c * t - r;
    SmallMultiple(q - c, t);
  }
}

=== FILE: batch.dfy ===
/** The batch assembler: batch count and per-class counts from the folder
    sizes, one Skip/Take window per class and batch, the key-order shuffle
    of the two slices, and the cut into groups of four for the tiler. */
module Batch {
  import opened Wrappers
  import opened Raster
  import opened Arith
  import Grid
  import Noise
  import Tiler
  import Loader
  import Shuffle

  /** Arguments of every tiler call: a 200 x 200 canvas and noise level 0.01. */
  const GroupSize: nat := 4
  const CanvasSide: nat := 200
  const NoiseLevel: Noise.Level := Noise.Ratio(1, 100)

  function Abs(x: int): nat
  {
    if x < 0 then -x else x
  }

  /** C# division of a non-negative int: truncation toward zero. */
  function TruncDiv(a: nat, b: int): (q: int)
    requires b != 0
    ensures 0 <= a - q * b < Abs(b)
  {
    if b > 0 then a / b
    else
      var q := a / -b;
      assert a - (-q) * b == a - q * -b;
      -q
  }

  datatype Plan = Plan(batches: int, catsPerBatch: int, dogsPerBatch: int)

  /** DirectoryNotFound: a folder is missing. DivideByZero: batch size 0, or a
      batch count of 0 used as a divisor. */
  datatype RunError = DirectoryNotFound | DivideByZero

  /** N = (cats + dogs) / (2 * B), then cats / N and dogs / N. */
  function MakePlan(cats: nat, dogs: nat, batchSize: int): (r: Result<Plan, RunError>)
    ensures r.Failure? <==> batchSize == 0 || cats + dogs < 2 * Abs(batchSize)
    ensures r.Failure? ==> r.error == DivideByZero
    ensures r.Success? && batchSize > 0 ==>
              r.value.batches > 0 &&
              r.value.batches * (2 * batchSize) <= cats + dogs < (r.value.batches + 1) * (2 * batchSize)
    ensures r.Success? && batchSize < 0 ==> r.value.batches < 0
    ensures r.Success? && r.value.batches > 0 ==>
              r.value.catsPerBatch >= 0 && r.value.dogsPerBatch >= 0 &&
              r.value.catsPerBatch * r.value.batches <= cats < (r.value.catsPerBatch + 1) * r.value.batches &&
              r.value.dogsPerBatch * r.value.batches <= dogs < (r.value.dogsPerBatch + 1) * r.value.batches
  {
    if batchSize == 0 then Failure(DivideByZero)
    else
      var n := TruncDiv(cats + dogs, 2 * batchSize);
      if n == 0 then Failure(DivideByZero)
      else
        BatchCountSign(cats + dogs, batchSize, n);
        var perCat, perDog := TruncDiv(cats, n), TruncDiv(dogs, n);
        PerBatchBounds(cats, n, perCat);
        PerBatchBounds(dogs, n, perDog);
        Success(Plan(n, perCat, perDog))
  }

  /** For a positive batch count, per is the whole number of times it fits in the pool. */
  lemma PerBatchBounds(pool: nat, n: int, per: int)
    requires n != 0 && 0 <= pool - per * n < Abs(n)
    ensures n > 0 ==> per >= 0 && per * n <= pool < (per + 1) * n
  {
    assert (per + 1) * n == per * n + n;
    MulLe(per, -1, n);
  }

  /** The batch count has the sign of the batch size; for a positive size it
      is the number of whole double batches the pools hold. */
  lemma BatchCountSign(total: nat, batchSize: int, n: int)
    requires batchSize != 0 && n != 0 && 0 <= total - n * (2 * batchSize) < Abs(2 * batchSize)
    ensures total >= Abs(2 * batchSize)
    ensures batchSize > 0 ==> n > 0 && n * (2 * batchSize) <= total < (n + 1) * (2 * batchSize)
    ensures batchSize < 0 ==> n < 0
  {
    var m := 2 * batchSize;
    if batchSize > 0 {
      MulLe(n, -1, m);
      MulLe(1, n, m);
      assert (n + 1) * m == n * m + m;
    } else {
      NegativeMultiple(n, m);
      MulLe(1, -n, -m);
      assert n * m == (-n) * (-m);
    }
  }

  lemma NegativeMultiple(n: int, m: int)
    ensures n >= 1 && m < 0 ==> n * m <= m
  {
    MulLe(1, n, -m);
    assert n * m == -(n * -m);
  }

  lemma PlanExamples()
    ensures MakePlan(1000, 1000, 100) == Success(Plan(10, 100, 100))
    ensures MakePlan(50, 50, 100) == Failure(DivideByZero)
    ensures MakePlan(50, 50, 0) == Failure(DivideByZero)
  {
  }

  /** Batch b asks each folder for the window [b * per, (b + 1) * per). For
      b < N these windows lie inside [0, N * per), which lies inside the
      folder's count, and two different batches never share a position. */
  lemma {:induction false} WindowsInsidePool(n: int, per: int, pool: nat, b: int)
    requires n > 0 && per >= 0 && per * n <= pool && 0 <= b < n
    ensures 0 <= b * per && (b + 1) * per <= n * per <= pool
  {
    MulLe(0, b, per);
    MulLe(b + 1, n, per);
  }

  lemma {:induction false} WindowsDisjoint(n: int, per: int, pool: nat, b1: int, b2: int)
    requires n > 0 && per >= 0 && per * n <= pool && 0 <= b1 < b2 < n
    ensures (b1 + 1) * per <= b2 * per
  {
    WindowsInsidePool(n, per, pool, b1);
    MulLe(b1 + 1, b2, per);
  }

  /** Cut a list into consecutive groups of four; only the last may be shorter. */
  function Chunks<T>(xs: seq<T>): (r: seq<seq<T>>)
    ensures |r| == (|xs| + 3) / 4
    ensures forall k :: 0 <= k < |r| ==> 1 <= |r[k]| <= GroupSize
    ensures forall k :: 0 <= k < |r| - 1 ==> |r[k]| == GroupSize
    decreases |xs|
  {
    if |xs| == 0 then []
    else if |xs| <= GroupSize then [xs]
    else [xs[..GroupSize]] + Chunks(xs[GroupSize..])
  }

  function Flatten<T>(xss: seq<seq<T>>): seq<T>
  {
    if |xss| == 0 then [] else xss[0] + Flatten(xss[1..])
  }

  /** The groups, put back together, are the list. */
  lemma {:induction false} ChunksFlatten<T>(xs: seq<T>)
    ensures Flatten(Chunks(xs)) == xs
    decreases |xs|
  {
    if |xs| > GroupSize {
      ChunksFlatten(xs[GroupSize..]);
      var r := Chunks(xs);
      assert r[1..] == Chunks(xs[GroupSize..]);
      assert xs == xs[..GroupSize] + xs[GroupSize..];
    } else if |xs| > 0 {
      assert Chunks(xs)[1..] == [];
      assert xs + [] == xs;
    }
  }

  /** The loop of `ProcessImages`: i steps by four and each group is
      `Skip(i).Take(4)`. */
  method TilerGroups<T>(images: seq<T>) returns (groups: seq<seq<T>>)
    ensures groups == Chunks(images)
  {
    groups := [];
    var i := 0;
    while i < |images|
      invariant 0 <= i
      invariant groups + Chunks(Loader.Skip(images, i)) == Chunks(images)
    {
      var rest := Loader.Skip(images, i);
      var group := Loader.Take(rest, GroupSize);
      SkipSkip(images, i, GroupSize);
      assert Chunks(rest) == [group] + Chunks(Loader.Skip(rest, GroupSize));
      groups := groups + [group];
      i := i + GroupSize;
    }
    assert Loader.Skip(images, i) == [];
  }

  lemma SkipSkip<T>(s: seq<T>, i: nat, j: nat)
    ensures Loader.Skip(Loader.Skip(s, i), j) == Loader.Skip(s, i + j)
  {
  }

  /** Each group is a legal tiler input: one to four images, so a grid of
      side 1 or 2, and the fixed arguments pass the tiler's validation. */
  lemma {:induction false} GroupsAreTileable(images: seq<Option<ColorImage>>, k: nat, canvas: GrayImage, draws: seq<Noise.Draw>, rs: Resizer)
    requires k < |Chunks(images)|
    requires canvas.width == CanvasSide && canvas.height == CanvasSide
    requires Noise.DrawsFit(draws, canvas.width, canvas.height) && |draws| >= canvas.width * canvas.height
    ensures Grid.CeilSqrt(|Chunks(images)[k]|) in {1, 2}
    ensures Tiler.CreateTiled(Chunks(images)[k], canvas, NoiseLevel, draws, rs).Success?
  {
    Grid.SmallGroupGrid(|Chunks(images)[k]|);
  }

  /** What one batch hands to the tiler: the shuffled list and its groups. */
  datatype BatchOut = BatchOut(
    images: seq<Option<ColorImage>>,
    groups: seq<seq<Option<ColorImage>>>)

  /** The slice of one folder for batch b: skip b * per, take per; slot i
      holds the decoding of the filtered file at position b * per + i. */
  function Slice(files: seq<string>, b: int, per: int, decode: string -> Option<ColorImage>): (r: seq<Option<ColorImage>>)
    ensures |r| == |Loader.Select(files, b * per, per)|
    ensures forall i :: 0 <= i < |r| ==> r[i] == decode(Loader.Filter(files)[Max(b * per, 0) + i])
  {
    Loader.LoadFromFolder(Some(files), b * per, per, decode).value
  }

  /** The cat slice of batch b followed by its dog slice. */
  function Slices(b: int, plan: Plan, cats: seq<string>, dogs: seq<string>,
                  decode: string -> Option<ColorImage>): seq<Option<ColorImage>>
  {
    Slice(cats, b, plan.catsPerBatch, decode) + Slice(dogs, b, plan.dogsPerBatch, decode)
  }

  /** n consecutive keys of the generator stream, starting at `offset`. */
  function Keys(key: nat -> int, offset: nat, n: nat): (r: seq<int>)
    ensures |r| == n
    ensures forall i :: 0 <= i < n ==> r[i] == key(offset + i)
  {
    seq(n, i requires 0 <= i < n => key(offset + i))
  }

  /** `ProcessBatch` for batch b: the two slices, concatenated, ordered by
      keys read from the generator stream starting at `offset`, then cut
      into the tiler's groups of four. */
  function ProcessBatch(b: int, plan: Plan, cats: seq<string>, dogs: seq<string>,
                        decode: string -> Option<ColorImage>, key: nat -> int, offset: nat): (r: BatchOut)
    ensures var both := Slices(b, plan, cats, dogs, decode);
            r.images == Shuffle.OrderByKeys(both, Keys(key, offset, |both|))
    ensures multiset(r.images) == Pool(b, plan, cats, dogs, decode)
    ensures |r.images| ==
              |Slice(cats, b, plan.catsPerBatch, decode)| + |Slice(dogs, b, plan.dogsPerBatch, decode)|
    ensures r.groups == Chunks(r.images)
    ensures Flatten(r.groups) == r.images
    ensures forall k :: 0 <= k < |r.groups| ==> 1 <= |r.groups[k]| <= GroupSize
  {
    var both := Slices(b, plan, cats, dogs, decode);
    var keys := Keys(key, offset, |both|);
    var images := Shuffle.OrderByKeys(both, keys);
    ChunksFlatten(images);
    BatchOut(images, Chunks(images))
  }

  /** The images of the two windows of batch b. */
  ghost function Pool(b: int, plan: Plan, cats: seq<string>, dogs: seq<string>,
                      decode: string -> Option<ColorImage>): multiset<Option<ColorImage>>
  {
    multiset(Slices(b, plan, cats, dogs, decode))
  }

  /** Number of generator draws the given batches consumed: one per image. */
  function KeysUsed(done: seq<BatchOut>): nat
  {
    if |done| == 0 then 0 else KeysUsed(done[..|done| - 1]) + |done[|done| - 1].images|
  }

  /** The first n results of a loop whose step b sees every result before it. */
  function Unfold<T>(n: nat, step: (nat, seq<T>) -> T): (r: seq<T>)
    ensures |r| == n
  {
    if n == 0 then [] else var done := Unfold(n - 1, step); done + [step(n - 1, done)]
  }

  /** Step b of the loop is fed exactly the results of steps 0 .. b-1. */
  lemma {:induction false} UnfoldAt<T>(n: nat, step: (nat, seq<T>) -> T, b: nat)
    requires b < n
    ensures Unfold(n, step)[b] == step(b, Unfold(b, step))
  {
    var done := Unfold(n - 1, step);
    assert Unfold(n, step) == done + [step(n - 1, done)];
    if b < n - 1 {
      UnfoldAt(n - 1, step, b);
    }
  }

  /** Running fewer steps gives a prefix of the longer run. */
  lemma {:induction false} UnfoldPrefix<T>(n: nat, m: nat, step: (nat, seq<T>) -> T)
    requires m <= n
    ensures Unfold(m, step) == Unfold(n, step)[..m]
  {
    if m < n {
      var done := Unfold(n - 1, step);
      UnfoldPrefix(n - 1, m, step);
      assert Unfold(n, step)[..n - 1] == done;
      assert Unfold(n, step)[..m] == done[..m];
    }
  }

  /** Batches 0 .. n-1. The generator is never reseeded: batch b reads its
      keys right after those of batches 0 .. b-1. */
  function RunBatches(n: nat, plan: Plan, cats: seq<string>, dogs: seq<string>,
                      decode: string -> Option<ColorImage>, key: nat -> int): (r: seq<BatchOut>)
    ensures |r| == n
  {
    Unfold(n, (b: nat, done: seq<BatchOut>) => ProcessBatch(b, plan, cats, dogs, decode, key, KeysUsed(done)))
  }

  /** Batch b of the run holds exactly the images of its two windows, in the
      order of the keys it read right after those the earlier batches used. */
  lemma RunBatchesContents(n: nat, plan: Plan, cats: seq<string>, dogs: seq<string>,
                           decode: string -> Option<ColorImage>, key: nat -> int, b: nat)
    requires b < n
    ensures var run := RunBatches(n, plan, cats, dogs, decode, key);
            run[b] == ProcessBatch(b, plan, cats, dogs, decode, key, KeysUsed(run[..b]))
    ensures multiset(RunBatches(n, plan, cats, dogs, decode, key)[b].images) == Pool(b, plan, cats, dogs, decode)
    ensures var run := RunBatches(n, plan, cats, dogs, decode, key);
            var both := Slices(b, plan, cats, dogs, decode);
            run[b].images == Shuffle.OrderByKeys(both, Keys(key, KeysUsed(run[..b]), |both|))
  {
    var step := (b: nat, done: seq<BatchOut>) => ProcessBatch(b, plan, cats, dogs, decode, key, KeysUsed(done));
    UnfoldAt(n, step, b);
    UnfoldPrefix(n, b, step);
  }

  /** `ProcessAllImages`. A listing is None when its folder is missing; the
      counts are of ALL files in each folder, while the windows index the
      filtered listing. A negative batch count runs no batch. */
  function Run(catDir: Option<seq<string>>, dogDir: Option<seq<string>>, batchSize: int,
               decode: string -> Option<ColorImage>, key: nat -> int): (r: Result<seq<BatchOut>, RunError>)
    ensures catDir.None? || dogDir.None? ==> r == Failure(DirectoryNotFound)
    ensures catDir.Some? && dogDir.Some? ==>
              (r.Failure? <==> batchSize == 0 || |catDir.value| + |dogDir.value| < 2 * Abs(batchSize))
    ensures catDir.Some? && dogDir.Some? && r.Failure? ==> r.error == DivideByZero
    ensures r.Success? ==>
              var plan := MakePlan(|catDir.value|, |dogDir.value|, batchSize).value;
              |r.value| == (if plan.batches > 0 then plan.batches else 0)
  {
    if catDir.None? || dogDir.None? then Failure(DirectoryNotFound)
    else
      match MakePlan(|catDir.value|, |dogDir.value|, batchSize)
      case Failure(e) => Failure(e)
      case Success(plan) =>
        var n: nat := if plan.batches > 0 then plan.batches else 0;
        Success(RunBatches(n, plan, catDir.value, dogDir.value, decode, key))
  }

  /** Batch b of a successful run is `ProcessBatch` for b, reading its keys
      right after those of the earlier batches; so it holds exactly the
      images of its two windows. */
  lemma RunContents(catDir: Option<seq<string>>, dogDir: Option<seq<string>>, batchSize: int,
                    decode: string -> Option<ColorImage>, key: nat -> int, b: nat)
    requires Run(catDir, dogDir, batchSize, decode, key).Success?
    requires b < |Run(catDir, dogDir, batchSize, decode, key).value|
    ensures var plan := MakePlan(|catDir.value|, |dogDir.value|, batchSize).value;
            var all := Run(catDir, dogDir, batchSize, decode, key).value;
            all[b] == ProcessBatch(b, plan, catDir.value, dogDir.value, decode, key, KeysUsed(all[..b]))
    ensures var plan := MakePlan(|catDir.value|, |dogDir.value|, batchSize).value;
            multiset(Run(catDir, dogDir, batchSize, decode, key).value[b].images)
              == Pool(b, plan, catDir.value, dogDir.value, decode)
  {
    var plan := MakePlan(|catDir.value|, |dogDir.value|, batchSize).value;
    var all := Run(catDir, dogDir, batchSize, decode, key).value;
    assert all == RunBatches(|all|, plan, catDir.value, dogDir.value, decode, key);
    RunBatchesContents(|all|, plan, catDir.value, dogDir.value, decode, key, b);
  }
}

=== FILE: desaturate.dfy ===
/** The per-pixel grey rule of the tiling engine: the darkest channel, or the
    green channel when all three channels agree. `ProcessImage` runs rows in
    parallel; rows never share output cells, so a sequential model suffices. */
module Desaturate {
  import opened Raster
  import opened Arith

  /** The rule as `ProcessImage` writes it, with its two branches. Both agree
      with the darkest channel: the result is no larger than any channel and
      equals one of them. */
  function DesaturatePixel(p: Rgb): (v: Byte)
    ensures v <= p.r && v <= p.g && v <= p.b
    ensures v == p.r || v == p.g || v == p.b
  {
    if p.g != p.b || p.b != p.r || p.g != p.r then Min(Min(p.g, p.b), p.r)
    else p.g
  }

  /** The two-branch rule is the plain minimum of the three channels taken in
      red, green, blue order, and a grey pixel keeps its value. */
  lemma DesaturateIsDarkestChannel(p: Rgb)
    ensures DesaturatePixel(p) == Min(Min(p.r, p.g), p.b)
    ensures p.r == p.g == p.b ==> DesaturatePixel(p) == p.g
  {
  }

  /** Grey version of a decoded colour image, same dimensions. */
  function DesaturateImage(c: ColorImage): (r: GrayImage)
    ensures r.width == c.width && r.height == c.height
    ensures forall y, x :: 0 <= y < c.height && 0 <= x < c.width ==>
      var p := c.rows[y][x];
      At(r, x, y) <= p.r && At(r, x, y) <= p.g && At(r, x, y) <= p.b &&
      (At(r, x, y) == p.r || At(r, x, y) == p.g || At(r, x, y) == p.b)
  {
    Tabulate(c.width, c.height,
      (x, y) => if 0 <= y < c.height && 0 <= x < c.width then DesaturatePixel(c.rows[y][x]) else 0)
  }

  /** A grey source pixel keeps its value. */
  lemma DesaturateKeepsGray(c: ColorImage, x: int, y: int)
    requires 0 <= y < c.height && 0 <= x < c.width
    requires c.rows[y][x].r == c.rows[y][x].g == c.rows[y][x].b
    ensures At(DesaturateImage(c), x, y) == c.rows[y][x].g
  {
  }
}

=== FILE: grid.dfy ===
/** Grid geometry of the tiling engine: the side of the square grid, the cell
    size, and row-major cell placement. */
module Grid {
  import opened Arith

  /** The least g with g * g >= n: the integer form of `Ceiling(Sqrt(n))`. */
  function CeilSqrt(n: nat): (g: nat)
    ensures g * g >= n
    ensures g == 0 || (g - 1) * (g - 1) < n
  {
    if n == 0 then 0
    else
      var h := CeilSqrt(n - 1);
      SquareStep(h);
      if h * h >= n then h else h + 1
  }

  lemma SquareStep(h: int)
    ensures (h + 1) * (h + 1) == h * h + 2 * h + 1
    ensures (h + 1 - 1) * (h + 1 - 1) == h * h
  {
  }

  /** CeilSqrt is the least such g, so it is the only one. */
  lemma CeilSqrtIsLeast(n: nat, k: nat)
    requires k * k >= n
    ensures CeilSqrt(n) <= k
  {
  }

  lemma CeilSqrtUnique(n: nat, g: nat)
    requires g * g >= n
    requires g == 0 || (g - 1) * (g - 1) < n
    ensures g == CeilSqrt(n)
  {
    CeilSqrtIsLeast(n, g);
    var c := CeilSqrt(n);
    MulMono(c, g - 1);
  }

  /** The values `Math.Ceiling(Math.Sqrt(n))` gives for small groups. */
  lemma GridSizeExamples()
    ensures CeilSqrt(1) == 1 && CeilSqrt(2) == 2 && CeilSqrt(3) == 2 && CeilSqrt(4) == 2
    ensures CeilSqrt(5) == 3 && CeilSqrt(9) == 3 && CeilSqrt(10) == 4
  {
    CeilSqrtUnique(1, 1);
    CeilSqrtUnique(2, 2);
    CeilSqrtUnique(3, 2);
    CeilSqrtUnique(4, 2);
    CeilSqrtUnique(5, 3);
    CeilSqrtUnique(9, 3);
    CeilSqrtUnique(10, 4);
  }

  /** A group of one to four images gets a grid of side 1 or 2. */
  lemma SmallGroupGrid(n: nat)
    requires 1 <= n <= 4
    ensures CeilSqrt(n) == (if n == 1 then 1 else 2)
  {
    if n == 1 { CeilSqrtUnique(1, 1); } else { CeilSqrtUnique(n, 2); }
  }

  /** The geometry shared by every cell of one tiling call. */
  datatype Layout = Layout(side: nat, cellWidth: nat, cellHeight: nat)

  /** Side from the image count, cell size by integer division of the canvas. */
  function MakeLayout(count: nat, width: nat, height: nat): (l: Layout)
    requires count > 0
    ensures l.side > 0 && l.side * l.side >= count
    ensures (l.side - 1) * (l.side - 1) < count
    ensures l.side * l.cellWidth <= width < l.side * l.cellWidth + l.side
    ensures l.side * l.cellHeight <= height < l.side * l.cellHeight + l.side
  {
    var g := CeilSqrt(count);
    var l := Layout(g, width / g, height / g);
    CellSizeBounds(l, width, height);
    l
  }

  /** Integer division leaves a remainder strip narrower than one cell per column. */
  lemma CellSizeBounds(l: Layout, width: nat, height: nat)
    requires l.side > 0 && l.cellWidth == width / l.side && l.cellHeight == height / l.side
    ensures l.side * l.cellWidth <= width < l.side * l.cellWidth + l.side
    ensures l.side * l.cellHeight <= height < l.side * l.cellHeight + l.side
  {
    DivBoundsLeft(width, l.side);
    DivBoundsLeft(height, l.side);
  }

  /** Row-major position of cell i: row i / side, column i % side. */
  function CellX(l: Layout, i: nat): nat
    requires l.side > 0
  {
    (i % l.side) * l.cellWidth
  }

  function CellY(l: Layout, i: nat): nat
    requires l.side > 0
  {
    (i / l.side) * l.cellHeight
  }

  /** Pixel (x, y) lies in the rectangle of cell i. */
  predicate InCell(l: Layout, i: nat, x: int, y: int)
    requires l.side > 0
  {
    CellX(l, i) <= x < CellX(l, i) + l.cellWidth &&
    CellY(l, i) <= y < CellY(l, i) + l.cellHeight
  }

  /** Every cell of an index below side * side fits inside the canvas. */
  lemma CellFits(l: Layout, i: nat, width: nat, height: nat)
    requires l.side > 0 && i < l.side * l.side
    requires l.side * l.cellWidth <= width && l.side * l.cellHeight <= height
    ensures CellX(l, i) + l.cellWidth <= width
    ensures CellY(l, i) + l.cellHeight <= height
  {
    var g := l.side;
    RowInGrid(i, g);
    var row, col := i / g, i % g;
    assert col + 1 <= g && row + 1 <= g;
    MulLe(col + 1, g, l.cellWidth);
    MulLe(row + 1, g, l.cellHeight);
    MulSucc(col, l.cellWidth);
    MulSucc(row, l.cellHeight);
  }

  /** The cell that contains a pixel, when one does. */
  function CellOf(l: Layout, x: int, y: int): (r: int)
    requires l.side > 0
    ensures r >= 0 ==> r < l.side * l.side && InCell(l, r, x, y)
  {
    if l.cellWidth == 0 || l.cellHeight == 0 || x < 0 || y < 0 then -1
    else
      var col, row := x / l.cellWidth, y / l.cellHeight;
      if col >= l.side || row >= l.side then -1
      else
        var i := row * l.side + col;
        DivBounds(x, l.cellWidth);
        DivBounds(y, l.cellHeight);
        DivFromBounds(i, l.side, row);
        MulLe(row + 1, l.side, l.side);
        assert (row + 1) * l.side == row * l.side + l.side;
        i
  }

  /** Row-major placement puts each pixel in at most one cell: a pixel inside
      cell i has CellOf equal to i, so two different cells never overlap. */
  lemma {:induction false} InCellOwner(l: Layout, i: nat, x: int, y: int)
    requires l.side > 0 && i < l.side * l.side
    requires InCell(l, i, x, y)
    ensures CellOf(l, x, y) == i
  {
    var g := l.side;
    RowInGrid(i, g);
    var row, col := i / g, i % g;
    DivFromBounds(x, l.cellWidth, col);
    DivFromBounds(y, l.cellHeight, row);
    assert CellOf(l, x, y) == row * g + col;
  }

  /** An index below g * g has row i / g below g. */
  lemma RowInGrid(i: nat, g: nat)
    requires g > 0 && i < g * g
    ensures i / g < g && i == (i / g) * g + i % g
  {
    DivBounds(i, g);
    MulLe(g, i / g, g);
  }

  lemma CellsDisjoint(l: Layout, i: nat, j: nat, x: int, y: int)
    requires l.side > 0 && i < l.side * l.side && j < l.side * l.side
    requires InCell(l, i, x, y) && InCell(l, j, x, y)
    ensures i == j
  {
    InCellOwner(l, i, x, y);
    InCellOwner(l, j, x, y);
  }
}

=== FILE: loader.dfy ===
/** The selection logic of the image loader: the extension filter, the
    Skip/Take window, and the index-aligned result arrays in which a file
    that cannot be loaded leaves an empty slot. Directory listing, file
    existence and decoding are inputs. */
module Loader {
  import opened Wrappers
  import opened Raster
  import opened Arith

  /** The accepted extensions, already lower case. */
  const SupportedExtensions: seq<string> := [".jpg", ".jpeg", ".png", ".bmp", ".gif"]

  /** Directory separators of the Windows paths the program uses. */
  predicate IsSeparator(c: char)
  {
    c == '/' || c == '\\'
  }

  /** `ToLower` on the ASCII letters. */
  function LowerChar(c: char): char
  {
    if 'A' <= c <= 'Z' then (c as int + 32) as char else c
  }

  function Lower(s: string): (r: string)
    ensures |r| == |s|
    ensures forall i :: 0 <= i < |s| ==> r[i] == LowerChar(s[i])
  {
    seq(|s|, i requires 0 <= i < |s| => LowerChar(s[i]))
  }

  /** `Path.GetExtension`: scan from position i - 1 down to the start for the
      last dot; a separator met first, or a dot in final position, means
      there is no extension. */
  function ExtensionFrom(p: string, i: nat): (e: string)
    requires i <= |p|
    requires forall k :: i <= k < |p| ==> p[k] != '.' && !IsSeparator(p[k])
    ensures e != "" ==> 2 <= |e| <= |p| && e == p[|p| - |e|..] && e[0] == '.'
    ensures e != "" ==> forall k :: 1 <= k < |e| ==> e[k] != '.' && !IsSeparator(e[k])
    decreases i
  {
    if i == 0 then ""
    else if p[i - 1] == '.' then (if i == |p| then "" else p[i - 1..])
    else if IsSeparator(p[i - 1]) then ""
    else ExtensionFrom(p, i - 1)
  }

  function Extension(p: string): (e: string)
    ensures e != "" ==> 2 <= |e| <= |p| && e == p[|p| - |e|..] && e[0] == '.'
    ensures e != "" ==> forall k :: 1 <= k < |e| ==> e[k] != '.' && !IsSeparator(e[k])
  {
    ExtensionFrom(p, |p|)
  }

  /** Conversely, a dot that is not the last character and is followed by
      neither a dot nor a separator starts the extension. */
  lemma {:induction false} ExtensionIsLastDot(p: string, j: nat)
    requires j < |p| - 1 && p[j] == '.'
    requires forall k :: j < k < |p| ==> p[k] != '.' && !IsSeparator(p[k])
    ensures Extension(p) == p[j..]
  {
    ExtensionFromLastDot(p, j, |p|);
  }

  lemma {:induction false} ExtensionFromLastDot(p: string, j: nat, i: nat)
    requires j < i <= |p| && j < |p| - 1 && p[j] == '.'
    requires forall k :: j < k < |p| ==> p[k] != '.' && !IsSeparator(p[k])
    ensures ExtensionFrom(p, i) == p[j..]
    decreases i
  {
    if i - 1 > j {
      ExtensionFromLastDot(p, j, i - 1);
    }
  }

  /** A name with no dot after its last separator (position s, or -1 when
      there is none) has no extension. */
  lemma {:induction false} NoDotNoExtension(p: string, s: int)
    requires -1 <= s < |p| && (s == -1 || IsSeparator(p[s]))
    requires forall k :: s < k < |p| ==> p[k] != '.'
    ensures Extension(p) == ""
  {
    NoDotFrom(p, s, |p|);
  }

  lemma {:induction false} NoDotFrom(p: string, s: int, i: nat)
    requires -1 <= s < |p| && (s == -1 || IsSeparator(p[s]))
    requires s < i <= |p|
    requires forall k :: s < k < |p| ==> p[k] != '.'
    requires forall k :: i <= k < |p| ==> p[k] != '.' && !IsSeparator(p[k])
    ensures ExtensionFrom(p, i) == ""
    decreases i
  {
    if i > 0 {
      if i - 1 == s {
        assert IsSeparator(p[i - 1]);
      } else if !IsSeparator(p[i - 1]) {
        assert p[i - 1] != '.';
        NoDotFrom(p, s, i - 1);
      }
    }
  }

  /** Lower-casing leaves dots and separators alone and creates none. */
  lemma LowerCharKeeps(c: char)
    ensures LowerChar(c) == '.' <==> c == '.'
    ensures IsSeparator(LowerChar(c)) <==> IsSeparator(c)
  {
  }

  /** Lower-casing commutes with extraction. */
  lemma {:induction false} ExtensionFromLower(p: string, i: nat)
    requires i <= |p|
    requires forall k :: i <= k < |p| ==> p[k] != '.' && !IsSeparator(p[k])
    ensures ExtensionFrom(Lower(p), i) == Lower(ExtensionFrom(p, i))
    decreases i
  {
    var q := Lower(p);
    forall k | 0 <= k < |p|
      ensures (q[k] == '.' <==> p[k] == '.') && (IsSeparator(q[k]) <==> IsSeparator(p[k]))
    {
      LowerCharKeeps(p[k]);
    }
    if i == 0 {
    } else if p[i - 1] == '.' {
      if i < |p| {
        assert q[i - 1..] == Lower(p[i - 1..]);
      }
    } else if IsSeparator(p[i - 1]) {
    } else {
      ExtensionFromLower(p, i - 1);
    }
  }

  /** The filter predicate: the lower-cased extension is a supported one. */
  predicate IsSupported(p: string)
  {
    Lower(Extension(p)) in SupportedExtensions
  }

  /** The reference reading of the filter: the name ends, ignoring case, with
      one of the supported extensions. */
  predicate EndsWithSupported(p: string)
  {
    exists e :: e in SupportedExtensions && |e| <= |p| && Lower(p[|p| - |e|..]) == e
  }

  /** Every supported extension is a dot followed by letters only. */
  lemma SupportedShape(e: string)
    requires e in SupportedExtensions
    ensures 2 <= |e| && e[0] == '.'
    ensures forall i :: 1 <= i < |e| ==> e[i] != '.' && !IsSeparator(e[i])
  {
  }

  /** The extension filter accepts exactly the names that end with a
      supported extension, whatever the case of their letters. */
  lemma SupportedIffSuffix(p: string)
    ensures IsSupported(p) <==> EndsWithSupported(p)
  {
    if IsSupported(p) {
      var e := Extension(p);
      assert p[|p| - |e|..] == e;
    }
    if EndsWithSupported(p) {
      var e :| e in SupportedExtensions && |e| <= |p| && Lower(p[|p| - |e|..]) == e;
      SupportedShape(e);
      var j := |p| - |e|;
      forall k | j < k < |p|
        ensures p[k] != '.' && !IsSeparator(p[k])
      {
        LowerCharKeeps(p[k]);
        assert LowerChar(p[k]) == e[k - j];
      }
      LowerCharKeeps(p[j]);
      assert LowerChar(p[j]) == e[0];
      ExtensionIsLastDot(p, j);
    }
  }

  /** Matching ignores letter case: two names that agree once lower-cased are
      accepted or rejected together. */
  lemma SupportIgnoresCase(p: string, q: string)
    requires Lower(p) == Lower(q)
    ensures IsSupported(p) <==> IsSupported(q)
  {
    ExtensionFromLower(p, |p|);
    ExtensionFromLower(q, |q|);
  }

  lemma UpperCaseAccepted()
    ensures IsSupported("E:\\PetImages\\Cat\\1.JPG")
  {
    ExtensionIsLastDot("E:\\PetImages\\Cat\\1.JPG", 18);
    assert Lower(".JPG") == ".jpg";
  }

  lemma OnlyLastExtensionCounts()
    ensures !IsSupported("photo.jpg.bak")
  {
    ExtensionIsLastDot("photo.jpg.bak", 9);
    assert Lower(".bak") == ".bak";
  }

  lemma DotInFolderNameIgnored()
    ensures !IsSupported("pics.jpg\\readme")
  {
    NoDotNoExtension("pics.jpg\\readme", 8);
  }

  /** The files with a supported extension, in listing order. */
  function Filter(files: seq<string>): (r: seq<string>)
    ensures |r| <= |files|
    ensures forall f :: f in r <==> f in files && IsSupported(f)
  {
    if |files| == 0 then []
    else (if IsSupported(files[0]) then [files[0]] else []) + Filter(files[1..])
  }

  /** Filtering a concatenation filters each part and keeps them in order. */
  lemma {:induction false} FilterAppend(a: seq<string>, b: seq<string>)
    ensures Filter(a + b) == Filter(a) + Filter(b)
    decreases |a|
  {
    if |a| > 0 {
      assert (a + b)[1..] == a[1..] + b;
      FilterAppend(a[1..], b);
    } else {
      assert a + b == b;
    }
  }

  /** LINQ `Skip`: a non-positive count skips nothing. */
  function Skip<T>(s: seq<T>, n: int): (r: seq<T>)
    ensures |r| == Max(0, |s| - Max(n, 0))
    ensures forall i :: 0 <= i < |r| ==> r[i] == s[i + Max(n, 0)]
  {
    if n <= 0 then s else if n >= |s| then [] else s[n..]
  }

  /** LINQ `Take`: a non-positive count takes nothing. */
  function Take<T>(s: seq<T>, n: int): (r: seq<T>)
    ensures |r| == Min(Max(n, 0), |s|)
    ensures forall i :: 0 <= i < |r| ==> r[i] == s[i]
  {
    if n <= 0 then [] else if n >= |s| then s else s[..n]
  }

  /** The files one call loads: filter, skip `skip`, take at most `max`. */
  function Select(files: seq<string>, skip: int, max: int): (r: seq<string>)
    ensures |r| == Min(Max(max, 0), Max(0, |Filter(files)| - Max(skip, 0)))
    ensures forall i :: 0 <= i < |r| ==> r[i] == Filter(files)[Max(skip, 0) + i]
    ensures forall f :: f in r ==> f in files && IsSupported(f)
  {
    Take(Skip(Filter(files), skip), max)
  }

  datatype LoadError = DirectoryNotFound

  /** `LoadImagesFromFolder` over a listing (None when the folder does not
      exist) with `decode` standing for `Image.FromFile`; slot i holds the
      result of decoding the i-th selected file, None on a decode failure. */
  function LoadFromFolder(listing: Option<seq<string>>, skip: int, max: int, decode: string -> Option<ColorImage>)
    : (r: Result<seq<Option<ColorImage>>, LoadError>)
    ensures listing.None? <==> r == Failure(DirectoryNotFound)
    ensures r.Success? ==> |r.value| == |Select(listing.value, skip, max)|
    ensures r.Success? ==> forall i :: 0 <= i < |r.value| ==>
              var f := Filter(listing.value)[Max(skip, 0) + i];
              r.value[i] == decode(f) && IsSupported(f)
  {
    match listing
    case None => Failure(DirectoryNotFound)
    case Some(files) =>
      var chosen := Select(files, skip, max);
      Success(seq(|chosen|, i requires 0 <= i < |chosen| => decode(chosen[i])))
  }

  /** `LoadImagesFromFiles`: one slot per path, left None when the file does
      not exist, its extension is not supported, or decoding fails. */
  function LoadFromFiles(paths: seq<string>, fileExists: string -> bool, decode: string -> Option<ColorImage>)
    : (r: seq<Option<ColorImage>>)
    ensures |r| == |paths|
    ensures forall i :: 0 <= i < |paths| ==>
              r[i] == (if fileExists(paths[i]) && IsSupported(paths[i]) then decode(paths[i]) else None)
  {
    seq(|paths|, i requires 0 <= i < |paths| =>
      var p := paths[i];
      if !fileExists(p) then None
      else if !IsSupported(p) then None
      else decode(p))
  }

  /** On the files a folder load selects, the per-file loader gives the same
      slots, provided every selected file still exists. */
  lemma LoadersAgree(files: seq<string>, skip: int, max: int, fileExists: string -> bool, decode: string -> Option<ColorImage>)
    requires forall f :: f in files ==> fileExists(f)
    ensures LoadFromFiles(Select(files, skip, max), fileExists, decode)
            == LoadFromFolder(Some(files), skip, max, decode).value
  {
  }
}

=== FILE: noise.dfy ===
/** Salt-and-pepper noise. `ApplySaltAndPepperNoise` draws from a process-wide unseeded
    generator; here the draws are an explicit input sequence, and the noise
    level, a double in `CreateTiledMatImage`, is an exact rational. */
module Noise {
  import opened Raster
  import opened Arith

  /** A noise level num / den. */
  datatype Ratio = Ratio(num: int, den: int)
  type Level = l: Ratio | l.den > 0 witness Ratio(0, 1)

  /** The level lies in [0, 1], the range the tiling entry point accepts. */
  predicate InRange(l: Level)
  {
    0 <= l.num <= l.den
  }

  /** Number of overwrites: the product of the pixel count and the level,
      truncated toward zero. */
  function PixelsToAffect(width: nat, height: nat, l: Level): (k: nat)
    requires InRange(l)
    ensures k <= width * height
    ensures k * l.den <= width * height * l.num < (k + 1) * l.den
  {
    ScaledFloor(width * height, l.num, l.den);
    (width * height * l.num) / l.den
  }

  /** Floor of total * num / den for 0 <= num <= den. */
  lemma ScaledFloor(total: nat, num: int, den: int)
    requires 0 <= num <= den && den > 0
    ensures 0 <= (total * num) / den <= total
    ensures (total * num) / den * den <= total * num < ((total * num) / den + 1) * den
  {
    var a := total * num;
    MulLe(num, den, total);
    assert 0 <= a <= total * den;
    DivLe(a, total * den, den);
    DivFromBounds(total * den, den, total);
    DivBounds(a, den);
    var k := a / den;
    assert (k + 1) * den == k * den + den;
  }

  lemma DivLe(a: nat, b: nat, d: int)
    requires a <= b && d > 0
    ensures a / d <= b / d
  {
    DivBounds(a, d);
    DivBounds(b, d);
    MulLe(b / d + 1, a / d, d);
  }

  lemma PixelsToAffectEnds(width: nat, height: nat, l: Level)
    requires InRange(l)
    ensures l.num == 0 ==> PixelsToAffect(width, height, l) == 0
    ensures l.num == l.den ==> PixelsToAffect(width, height, l) == width * height
  {
    var total := width * height;
    if l.num == l.den {
      DivFromBounds(total * l.den, l.den, total);
    }
  }

  /** One iteration's three draws: `Next(width)`, `Next(height)`, and whether
      `Next(2)` came out 0. */
  datatype Draw = Draw(x: int, y: int, zeroDrawn: bool)

  /** The value a draw writes: 0 (pepper) when `Next(2)` gave 0, else 255 (salt). */
  function DrawValue(d: Draw): (v: Byte)
    ensures v == 0 || v == 255
    ensures v == 0 <==> d.zeroDrawn
  {
    if d.zeroDrawn then 0 else 255
  }

  predicate DrawsFit(ds: seq<Draw>, width: nat, height: nat)
  {
    forall k :: 0 <= k < |ds| ==> 0 <= ds[k].x < width && 0 <= ds[k].y < height
  }

  /** Image with pixel (x, y) replaced by v. */
  function SetPixel(g: GrayImage, x: int, y: int, v: Byte): (r: GrayImage)
    requires 0 <= x < g.width && 0 <= y < g.height
    ensures SameDims(r, g)
    ensures At(r, x, y) == v
    ensures forall y', x' :: 0 <= y' < g.height && 0 <= x' < g.width && (x', y') != (x, y) ==>
      At(r, x', y') == At(g, x', y')
  {
    var row: seq<Byte> := g.rows[y][x := v];
    GrayRaster(g.width, g.height, g.rows[y := row])
  }

  /** Apply the draws in order, each overwriting one pixel. */
  function ApplyDraws(g: GrayImage, ds: seq<Draw>): (r: GrayImage)
    requires DrawsFit(ds, g.width, g.height)
    ensures SameDims(r, g)
    decreases |ds|
  {
    if |ds| == 0 then g
    else
      var last := ds[|ds| - 1];
      var prev := ApplyDraws(g, ds[..|ds| - 1]);
      SetPixel(prev, last.x, last.y, DrawValue(last))
  }

  predicate Hits(d: Draw, x: int, y: int)
  {
    d.x == x && d.y == y
  }

  /** None of the first n draws selects pixel (x, y). */
  predicate Untouched(ds: seq<Draw>, n: nat, x: int, y: int)
    requires n <= |ds|
  {
    forall k :: 0 <= k < n ==> !Hits(ds[k], x, y)
  }

  /** Draw k is the last of the first n draws to select its pixel. */
  predicate LastHit(ds: seq<Draw>, n: nat, k: nat)
    requires k < n <= |ds|
  {
    forall j :: k < j < n ==> !Hits(ds[j], ds[k].x, ds[k].y)
  }

  /** A pixel that no draw selects keeps its value. */
  lemma {:induction false} UntouchedPixelKept(g: GrayImage, ds: seq<Draw>, x: int, y: int)
    requires DrawsFit(ds, g.width, g.height)
    requires 0 <= x < g.width && 0 <= y < g.height
    requires Untouched(ds, |ds|, x, y)
    ensures At(ApplyDraws(g, ds), x, y) == At(g, x, y)
    decreases |ds|
  {
    if |ds| > 0 {
      var init := ds[..|ds| - 1];
      assert forall k :: 0 <= k < |init| ==> init[k] == ds[k];
      UntouchedPixelKept(g, init, x, y);
    }
  }

  /** A selected pixel holds the value of the last draw that selected it. */
  lemma {:induction false} LastDrawWins(g: GrayImage, ds: seq<Draw>, k: nat)
    requires DrawsFit(ds, g.width, g.height)
    requires k < |ds| && LastHit(ds, |ds|, k)
    ensures At(ApplyDraws(g, ds), ds[k].x, ds[k].y) == DrawValue(ds[k])
    decreases |ds|
  {
    if k < |ds| - 1 {
      var init := ds[..|ds| - 1];
      assert forall j :: 0 <= j < |init| ==> init[j] == ds[j];
      LastDrawWins(g, init, k);
    }
  }

  /** Every pixel of the result is either its original value, 0 or 255. */
  lemma {:induction false} NoiseValues(g: GrayImage, ds: seq<Draw>, x: int, y: int)
    requires DrawsFit(ds, g.width, g.height)
    requires 0 <= x < g.width && 0 <= y < g.height
    ensures var v := At(ApplyDraws(g, ds), x, y); v == At(g, x, y) || v == 0 || v == 255
    decreases |ds|
  {
    if |ds| > 0 {
      NoiseValues(g, ds[..|ds| - 1], x, y);
    }
  }

  /** The injector: exactly PixelsToAffect draws, taken from the front of the
      stream, and nothing at all for level zero. Each used draw that is the
      last to select its pixel leaves its salt or pepper value there
      (SaltAndPepperDraw), a pixel no used draw selects keeps its value, and
      no value other than 0 and 255 appears (SaltAndPepperValues). */
  function SaltAndPepper(g: GrayImage, l: Level, draws: seq<Draw>): (r: GrayImage)
    requires InRange(l)
    requires DrawsFit(draws, g.width, g.height)
    requires |draws| >= g.width * g.height
    ensures SameDims(r, g)
    ensures l.num == 0 ==> r == g
    ensures forall y, x ::
              0 <= y < g.height && 0 <= x < g.width && Untouched(draws, PixelsToAffect(g.width, g.height, l), x, y)
              ==> At(r, x, y) == At(g, x, y)
  {
    var n := PixelsToAffect(g.width, g.height, l);
    var used := draws[..n];
    forall y, x | 0 <= y < g.height && 0 <= x < g.width && Untouched(draws, n, x, y)
      ensures At(ApplyDraws(g, used), x, y) == At(g, x, y)
    {
      UntouchedPixelKept(g, used, x, y);
    }
    ApplyDraws(g, used)
  }

  /** A used draw that no later used draw overrides decides its pixel. */
  lemma SaltAndPepperDraw(g: GrayImage, l: Level, draws: seq<Draw>, k: nat)
    requires DrawsFit(draws, g.width, g.height) && |draws| >= g.width * g.height
    requires InRange(l)
    requires k < PixelsToAffect(g.width, g.height, l)
    requires LastHit(draws, PixelsToAffect(g.width, g.height, l), k)
    ensures At(SaltAndPepper(g, l, draws), draws[k].x, draws[k].y) == DrawValue(draws[k])
  {
    var n := PixelsToAffect(g.width, g.height, l);
    var used := draws[..n];
    assert forall j :: 0 <= j < n ==> used[j] == draws[j];
    LastDrawWins(g, used, k);
  }

  /** Noise only ever writes full black or full white. */
  lemma SaltAndPepperValues(g: GrayImage, l: Level, draws: seq<Draw>, x: int, y: int)
    requires DrawsFit(draws, g.width, g.height) && |draws| >= g.width * g.height
    requires InRange(l)
    requires 0 <= x < g.width && 0 <= y < g.height
    ensures var v := At(SaltAndPepper(g, l, draws), x, y); v == At(g, x, y) || v == 0 || v == 255
  {
    NoiseValues(g, draws[..PixelsToAffect(g.width, g.height, l)], x, y);
  }
}

=== FILE: raster.dfy ===
/** Pixel and image types shared by the tiling engine, the loader and the
    batch assembler. Images carry their width and height next to their rows,
    so that a zero-height image still has a width. */
module Raster {
  import opened Wrappers

  /** An 8-bit channel value. */
  type Byte = x: int | 0 <= x < 256

  /** One colour pixel; `ProcessImage` reads it as a Bgr triple. */
  datatype Rgb = Rgb(r: Byte, g: Byte, b: Byte)

  /** Row-major grids of pixels with declared dimensions. */
  datatype ColorRaster = ColorRaster(width: nat, height: nat, rows: seq<seq<Rgb>>)
  datatype GrayRaster = GrayRaster(width: nat, height: nat, rows: seq<seq<Byte>>)

  predicate ColorShaped(c: ColorRaster)
  {
    |c.rows| == c.height && forall y :: 0 <= y < |c.rows| ==> |c.rows[y]| == c.width
  }

  predicate GrayShaped(g: GrayRaster)
  {
    |g.rows| == g.height && forall y :: 0 <= y < |g.rows| ==> |g.rows[y]| == g.width
  }

  /** A decoded colour image: exactly `height` rows of `width` pixels. */
  type ColorImage = c: ColorRaster | ColorShaped(c) witness ColorRaster(0, 0, [])

  /** A single-channel 8-bit image (an Emgu `Mat` of depth Cv8U, one channel). */
  type GrayImage = g: GrayRaster | GrayShaped(g) witness GrayRaster(0, 0, [])

  /** Intensity at column x, row y. */
  function At(g: GrayImage, x: int, y: int): Byte
    requires 0 <= x < g.width && 0 <= y < g.height
  {
    g.rows[y][x]
  }

  predicate SameDims(a: GrayImage, b: GrayImage)
  {
    a.width == b.width && a.height == b.height
  }

  /** The single image made of `f(x, y)` at every position. */
  function Tabulate(w: nat, h: nat, f: (int, int) -> Byte): (r: GrayImage)
    ensures r.width == w && r.height == h
    ensures forall y, x :: 0 <= y < h && 0 <= x < w ==> At(r, x, y) == f(x, y)
  {
    GrayRaster(w, h, seq(h, y => seq(w, x => f(x, y))))
  }

  /** The external resize routine (Emgu's `CvInvoke.Resize`), kept abstract:
      it either fails or yields a target-sized image whose pixel at (x, y)
      is some function of the input image and the target size. */
  datatype Resizer = Resizer(
    fails: (GrayImage, nat, nat) -> bool,
    sample: (GrayImage, nat, nat, int, int) -> Byte)

  function Resize(rs: Resizer, src: GrayImage, w: nat, h: nat): (r: Option<GrayImage>)
    ensures r.Some? <==> !rs.fails(src, w, h)
    ensures r.Some? ==> r.value.width == w && r.value.height == h
    ensures r.Some? ==> forall y, x :: 0 <= y < h && 0 <= x < w ==>
              At(r.value, x, y) == rs.sample(src, w, h, x, y)
  {
    if rs.fails(src, w, h) then None
    else Some(Tabulate(w, h, (x, y) => rs.sample(src, w, h, x, y)))
  }
}

=== FILE: serializer.dfy ===
/** The canvas-to-matrix serializer: one entry per row, keyed by the row
    index, each holding the row's intensities divided by 255 and rounded to
    three decimals. A value is kept as its exact number of thousandths. */
module Serializer {
  import opened Raster

  /** round(v / 255, 3) expressed in thousandths. 1000 * v / 255 is never
      exactly halfway between two integers, so the rounding mode (`Math.Round`
      rounds half to even) does not matter. */
  function Thousandths(v: Byte): (t: int)
    ensures 0 <= t <= 1000
    ensures -255 < 2000 * v - 510 * t < 255
    ensures v == 0 ==> t == 0
    ensures v == 255 ==> t == 1000
  {
    var t := (2000 * v + 255) / 510;
    NotHalfway(v, t);
    t
  }

  /** 2000 * v + 255 is odd and 510 * t is even. */
  lemma NotHalfway(v: int, t: int)
    ensures 2000 * v + 255 != 510 * t
  {
    assert 2000 * v + 255 == 2 * (1000 * v + 127) + 1;
    assert 510 * t == 2 * (255 * t);
  }

  /** The nearest-integer property pins the value down: no other count of
      thousandths is within half a unit of 1000 * v / 255. */
  lemma ThousandthsIsNearest(v: Byte, t: int)
    requires -255 < 2000 * v - 510 * t < 255
    ensures t == Thousandths(v)
  {
  }

  /** One serialized row: the key (the decimal text of `index` in the JSON
      object) and the row's values. */
  datatype Row = Row(index: nat, values: seq<int>)

  /** Serialize the whole canvas, top to bottom, left to right. */
  function Serialize(g: GrayImage): (m: seq<Row>)
    ensures |m| == g.height
    ensures forall y :: 0 <= y < |m| ==> m[y].index == y && |m[y].values| == g.width
    ensures forall y, x :: 0 <= y < g.height && 0 <= x < g.width ==>
              0 <= m[y].values[x] <= 1000 && -255 < 2000 * At(g, x, y) - 510 * m[y].values[x] < 255
  {
    seq(g.height, y requires 0 <= y < g.height =>
      Row(y, seq(g.width, x requires 0 <= x < g.width => Thousandths(g.rows[y][x]))))
  }

  /** Reading a value back as an intensity: round(t * 255 / 1000), half up. */
  function Intensity(t: int): int
  {
    (510 * t + 1000) / 2000
  }

  /** The three-decimal form loses nothing: every byte is recovered exactly. */
  lemma ThousandthsRoundTrip(v: Byte)
    ensures Intensity(Thousandths(v)) == v
  {
  }

  /** Rebuild a canvas from a matrix of the given shape. */
  function Deserialize(m: seq<Row>, w: nat): (g: GrayImage)
    ensures g.width == w && g.height == |m|
  {
    Tabulate(w, |m|, (x, y) =>
      if 0 <= y < |m| && 0 <= x < |m[y].values| && 0 <= Intensity(m[y].values[x]) < 256
      then Intensity(m[y].values[x]) as Byte else 0)
  }

  /** Serializing and reading back gives the original canvas. */
  lemma SerializeRoundTrip(g: GrayImage)
    ensures Deserialize(Serialize(g), g.width) == g
  {
    var m := Serialize(g);
    var r := Deserialize(m, g.width);
    forall y | 0 <= y < g.height
      ensures r.rows[y] == g.rows[y]
    {
      forall x | 0 <= x < g.width
        ensures r.rows[y][x] == g.rows[y][x]
      {
        ThousandthsRoundTrip(g.rows[y][x]);
      }
    }
  }
}

=== FILE: shuffle.dfy ===
/** `OrderBy(x => random.NextDouble())`: each element gets one key from the
    generator, in list order, and the list is stably sorted by key. Keys are
    kept as integers; only their order matters. */
module Shuffle {

  datatype Keyed<T> = Keyed(key: int, item: T)

  predicate SortedByKey<T>(s: seq<Keyed<T>>)
  {
    forall i, j :: 0 <= i < j < |s| ==> s[i].key <= s[j].key
  }

  function Items<T>(s: seq<Keyed<T>>): (r: seq<T>)
    ensures |r| == |s|
  {
    if |s| == 0 then [] else [s[0].item] + Items(s[1..])
  }

  /** Put p in front of the first element whose key is not smaller, so that
      p stays ahead of the equal keys that came after it in the input. */
  function InsertFirst<T>(p: Keyed<T>, s: seq<Keyed<T>>): (r: seq<Keyed<T>>)
    ensures |r| == |s| + 1
    ensures multiset(r) == multiset(s) + multiset{p}
  {
    if |s| == 0 || p.key <= s[0].key then [p] + s
    else
      assert s == [s[0]] + s[1..];
      [s[0]] + InsertFirst(p, s[1..])
  }

  lemma {:induction false} InsertFirstSorted<T>(p: Keyed<T>, s: seq<Keyed<T>>)
    requires SortedByKey(s)
    ensures SortedByKey(InsertFirst(p, s))
    decreases |s|
  {
    if |s| > 0 && p.key > s[0].key {
      var rest := InsertFirst(p, s[1..]);
      InsertFirstSorted(p, s[1..]);
      forall k | 0 <= k < |rest|
        ensures s[0].key <= rest[k].key
      {
        assert rest[k] in multiset(rest);
        assert rest[k] == p || rest[k] in s[1..];
      }
    }
  }

  lemma {:induction false} InsertFirstItems<T>(p: Keyed<T>, s: seq<Keyed<T>>)
    ensures multiset(Items(InsertFirst(p, s))) == multiset(Items(s)) + multiset{p.item}
    decreases |s|
  {
    var r := InsertFirst(p, s);
    if |s| == 0 || p.key <= s[0].key {
      assert r[1..] == s;
    } else {
      InsertFirstItems(p, s[1..]);
      assert r[1..] == InsertFirst(p, s[1..]);
    }
  }

  /** Stable insertion sort by key. */
  function SortByKey<T>(s: seq<Keyed<T>>): (r: seq<Keyed<T>>)
    ensures |r| == |s|
    ensures multiset(r) == multiset(s)
    ensures SortedByKey(r)
  {
    if |s| == 0 then []
    else
      assert s == [s[0]] + s[1..];
      var rest := SortByKey(s[1..]);
      InsertFirstSorted(s[0], rest);
      InsertFirst(s[0], rest)
  }

  lemma {:induction false} SortByKeyItems<T>(s: seq<Keyed<T>>)
    ensures multiset(Items(SortByKey(s))) == multiset(Items(s))
    decreases |s|
  {
    if |s| > 0 {
      SortByKeyItems(s[1..]);
      InsertFirstItems(s[0], SortByKey(s[1..]));
    }
  }

  /** Input already in key order comes back unchanged: the sort is stable. */
  lemma {:induction false} SortedInputUnchanged<T>(s: seq<Keyed<T>>)
    requires SortedByKey(s)
    ensures SortByKey(s) == s
  {
    if |s| > 0 {
      SortedInputUnchanged(s[1..]);
      assert s == [s[0]] + s[1..];
    }
  }

  /** Pair the i-th element with the i-th key. */
  function Tag<T>(xs: seq<T>, keys: seq<int>): (r: seq<Keyed<T>>)
    requires |keys| == |xs|
    ensures |r| == |xs|
    ensures forall i :: 0 <= i < |xs| ==> r[i] == Keyed(keys[i], xs[i])
  {
    seq(|xs|, i requires 0 <= i < |xs| => Keyed(keys[i], xs[i]))
  }

  lemma {:induction false} ItemsOfTag<T>(xs: seq<T>, keys: seq<int>)
    requires |keys| == |xs|
    ensures Items(Tag(xs, keys)) == xs
    decreases |xs|
  {
    if |xs| > 0 {
      ItemsOfTag(xs[1..], keys[1..]);
      assert Tag(xs, keys)[1..] == Tag(xs[1..], keys[1..]);
    }
  }

  /** The shuffle: the same elements, as many times each, in key order: the
      result is the item column of a key-sorted arrangement of the tagged
      input. */
  function OrderByKeys<T(!new)>(xs: seq<T>, keys: seq<int>): (r: seq<T>)
    requires |keys| == |xs|
    ensures |r| == |xs|
    ensures multiset(r) == multiset(xs)
    ensures exists s :: SortedByKey(s) && multiset(s) == multiset(Tag(xs, keys)) && Items(s) == r
  {
    ItemsOfTag(xs, keys);
    SortByKeyItems(Tag(xs, keys));
    Items(SortByKey(Tag(xs, keys)))
  }
}

=== FILE: tiler.dfy ===
/** The tiling engine: validation, grid layout, row-major placement with the
    size guard of `CreateTiledMatImage`, optional noise, and the pairing with the matrix. */
module Tiler {
  import opened Wrappers
  import opened Raster
  import opened Grid
  import Desaturate
  import opened Noise
  import Serializer

  /** The two argument errors the entry point throws. */
  datatype TileError = EmptySources | NoiseLevelOutOfRange

  /** Grey conversion followed by the external resize; any failure is None.
      The tile is sampled from the grey image, never from the colour one. */
  function ProcessImage(src: ColorImage, w: nat, h: nat, rs: Resizer): (r: Option<GrayImage>)
    ensures r.Some? ==> r.value.width == w && r.value.height == h
    ensures r.Some? <==> !rs.fails(Desaturate.DesaturateImage(src), w, h)
    ensures r.Some? ==> forall y, x :: 0 <= y < h && 0 <= x < w ==>
              At(r.value, x, y) == rs.sample(Desaturate.DesaturateImage(src), w, h, x, y)
  {
    Resize(rs, Desaturate.DesaturateImage(src), w, h)
  }

  /** Copy tile t into canvas c with its top-left corner at (x0, y0). */
  function Blit(c: GrayImage, t: GrayImage, x0: nat, y0: nat): (r: GrayImage)
    requires x0 + t.width <= c.width && y0 + t.height <= c.height
    ensures SameDims(r, c)
    ensures forall y, x :: 0 <= y < c.height && 0 <= x < c.width ==>
              At(r, x, y) == (if x0 <= x < x0 + t.width && y0 <= y < y0 + t.height
                              then At(t, x - x0, y - y0) else At(c, x, y))
  {
    Tabulate(c.width, c.height, (x, y) =>
      if x0 <= x < x0 + t.width && y0 <= y < y0 + t.height then t.rows[y - y0][x - x0]
      else if 0 <= y < c.height && 0 <= x < c.width then c.rows[y][x]
      else 0)
  }

  /** The tile written into cell i, if any: the source picture must be present, its
      processing must succeed, and its height AND width must both exceed the
      cell HEIGHT (`CreateTiledMatImage` compares the width against the cell height too). */
  function TileAt(sources: seq<Option<ColorImage>>, l: Layout, rs: Resizer, i: nat): (r: Option<GrayImage>)
    requires i < |sources|
    ensures r.Some? <==>
              && sources[i].Some?
              && ProcessImage(sources[i].value, l.cellWidth, l.cellHeight, rs).Some?
              && sources[i].value.height > l.cellHeight
              && sources[i].value.width > l.cellHeight
    ensures r.Some? ==> r.value.width == l.cellWidth && r.value.height == l.cellHeight
  {
    match sources[i]
    case None => None
    case Some(src) =>
      match ProcessImage(src, l.cellWidth, l.cellHeight, rs)
      case None => None
      case Some(t) =>
        if src.height > l.cellHeight && src.width > l.cellHeight then Some(t) else None
  }

  /** The layout fits the canvas and has a cell for every source. */
  predicate LayoutFor(l: Layout, n: nat, c: GrayImage)
  {
    l.side > 0 && n <= l.side * l.side &&
    l.side * l.cellWidth <= c.width && l.side * l.cellHeight <= c.height
  }

  /** Process sources 0 .. k-1 in order, writing each accepted tile into its cell. */
  function Place(sources: seq<Option<ColorImage>>, l: Layout, rs: Resizer, c: GrayImage, k: nat): (r: GrayImage)
    requires k <= |sources| && LayoutFor(l, |sources|, c)
    ensures SameDims(r, c)
  {
    if k == 0 then c
    else
      var prev := Place(sources, l, rs, c, k - 1);
      match TileAt(sources, l, rs, k - 1)
      case None => prev
      case Some(t) =>
        CellFits(l, k - 1, c.width, c.height);
        Blit(prev, t, CellX(l, k - 1), CellY(l, k - 1))
  }

  /** Reference value of pixel (x, y) after the first k sources: the accepted
      tile of the one cell holding (x, y), or else the initial canvas. */
  function Expected(sources: seq<Option<ColorImage>>, l: Layout, rs: Resizer, c: GrayImage, k: nat, x: int, y: int): Byte
    requires k <= |sources| && LayoutFor(l, |sources|, c)
    requires 0 <= x < c.width && 0 <= y < c.height
  {
    var i := CellOf(l, x, y);
    if 0 <= i < k && TileAt(sources, l, rs, i).Some? then
      At(TileAt(sources, l, rs, i).value, x - CellX(l, i), y - CellY(l, i))
    else At(c, x, y)
  }

  /** One placement step: source j overwrites exactly its own cell. */
  lemma PlaceStep(sources: seq<Option<ColorImage>>, l: Layout, rs: Resizer, c: GrayImage, j: nat, x: int, y: int)
    requires j < |sources| && LayoutFor(l, |sources|, c)
    requires 0 <= x < c.width && 0 <= y < c.height
    ensures At(Place(sources, l, rs, c, j + 1), x, y)
            == (if TileAt(sources, l, rs, j).Some? && InCell(l, j, x, y)
                then At(TileAt(sources, l, rs, j).value, x - CellX(l, j), y - CellY(l, j))
                else At(Place(sources, l, rs, c, j), x, y))
  {
    var prev := Place(sources, l, rs, c, j);
    match TileAt(sources, l, rs, j)
    case None =>
      assert Place(sources, l, rs, c, j + 1) == prev;
    case Some(t) =>
      CellFits(l, j, c.width, c.height);
      assert Place(sources, l, rs, c, j + 1) == Blit(prev, t, CellX(l, j), CellY(l, j));
  }

  /** The reference moves the same way: only the owner of (x, y) matters. */
  lemma ExpectedStep(sources: seq<Option<ColorImage>>, l: Layout, rs: Resizer, c: GrayImage, j: nat, x: int, y: int)
    requires j < |sources| && LayoutFor(l, |sources|, c)
    requires 0 <= x < c.width && 0 <= y < c.height
    ensures Expected(sources, l, rs, c, j + 1, x, y)
            == (if TileAt(sources, l, rs, j).Some? && InCell(l, j, x, y)
                then At(TileAt(sources, l, rs, j).value, x - CellX(l, j), y - CellY(l, j))
                else Expected(sources, l, rs, c, j, x, y))
  {
    if InCell(l, j, x, y) {
      InCellOwner(l, j, x, y);
    }
  }

  /** Placement and reference agree at (x, y) after the first k sources. */
  predicate Agrees(sources: seq<Option<ColorImage>>, l: Layout, rs: Resizer, c: GrayImage, k: nat, x: int, y: int)
    requires k <= |sources| && LayoutFor(l, |sources|, c)
    requires 0 <= x < c.width && 0 <= y < c.height
  {
    At(Place(sources, l, rs, c, k), x, y) == Expected(sources, l, rs, c, k, x, y)
  }

  /** If placement matches the reference after k-1 sources, it still does after k. */
  lemma PlaceExpectedStep(sources: seq<Option<ColorImage>>, l: Layout, rs: Resizer, c: GrayImage, j: nat, x: int, y: int)
    requires j < |sources| && LayoutFor(l, |sources|, c)
    requires 0 <= x < c.width && 0 <= y < c.height
    requires Agrees(sources, l, rs, c, j, x, y)
    ensures Agrees(sources, l, rs, c, j + 1, x, y)
  {
    PlaceStep(sources, l, rs, c, j, x, y);
    ExpectedStep(sources, l, rs, c, j, x, y);
  }

  lemma {:induction false} AgreesUpTo(sources: seq<Option<ColorImage>>, l: Layout, rs: Resizer, c: GrayImage, k: nat, x: int, y: int)
    requires k <= |sources| && LayoutFor(l, |sources|, c)
    requires 0 <= x < c.width && 0 <= y < c.height
    ensures Agrees(sources, l, rs, c, k, x, y)
  {
    if k > 0 {
      var j: nat := k - 1;
      AgreesUpTo(sources, l, rs, c, j, x, y);
      PlaceExpectedStep(sources, l, rs, c, j, x, y);
    }
  }

  /** Placement in source order agrees with the reference at every pixel. */
  lemma PlaceMatchesExpected(sources: seq<Option<ColorImage>>, l: Layout, rs: Resizer, c: GrayImage, k: nat, x: int, y: int)
    requires k <= |sources| && LayoutFor(l, |sources|, c)
    requires 0 <= x < c.width && 0 <= y < c.height
    ensures At(Place(sources, l, rs, c, k), x, y) == Expected(sources, l, rs, c, k, x, y)
  {
    AgreesUpTo(sources, l, rs, c, k, x, y);
  }

  /** A pixel of an accepted cell holds the matching tile pixel. */
  lemma PlacedCellPixel(sources: seq<Option<ColorImage>>, l: Layout, rs: Resizer, c: GrayImage, i: nat, x: int, y: int)
    requires LayoutFor(l, |sources|, c)
    requires i < |sources| && TileAt(sources, l, rs, i).Some?
    requires 0 <= x < c.width && 0 <= y < c.height && InCell(l, i, x, y)
    ensures At(Place(sources, l, rs, c, |sources|), x, y)
            == At(TileAt(sources, l, rs, i).value, x - CellX(l, i), y - CellY(l, i))
  {
    InCellOwner(l, i, x, y);
    assert Expected(sources, l, rs, c, |sources|, x, y)
        == At(TileAt(sources, l, rs, i).value, x - CellX(l, i), y - CellY(l, i));
    PlaceMatchesExpected(sources, l, rs, c, |sources|, x, y);
  }

  /** A pixel outside every accepted cell keeps its initial value; this
      covers missing sources, failed processing, the size guard, and the
      right and bottom remainder strips. */
  lemma PlacedBackgroundPixel(sources: seq<Option<ColorImage>>, l: Layout, rs: Resizer, c: GrayImage, x: int, y: int)
    requires LayoutFor(l, |sources|, c)
    requires 0 <= x < c.width && 0 <= y < c.height
    requires forall i :: 0 <= i < |sources| && TileAt(sources, l, rs, i).Some? ==> !InCell(l, i, x, y)
    ensures At(Place(sources, l, rs, c, |sources|), x, y) == At(c, x, y)
  {
    PlaceMatchesExpected(sources, l, rs, c, |sources|, x, y);
  }

  /** The body of `CreateTiledMatImage`. `canvas` is the freshly allocated
      output, whose content `CreateTiledMatImage` never sets, and `draws` is the stream
      of the shared unseeded generator. */
  function CreateTiled(sources: seq<Option<ColorImage>>, canvas: GrayImage, level: Level, draws: seq<Draw>, rs: Resizer): (r: Result<GrayImage, TileError>)
    requires DrawsFit(draws, canvas.width, canvas.height) && |draws| >= canvas.width * canvas.height
    ensures r.Failure? <==> |sources| == 0 || !InRange(level)
    ensures |sources| == 0 ==> r == Failure(EmptySources)
    ensures |sources| > 0 && !InRange(level) ==> r == Failure(NoiseLevelOutOfRange)
    ensures r.Success? ==> SameDims(r.value, canvas)
  {
    if |sources| == 0 then Failure(EmptySources)
    else if !InRange(level) then Failure(NoiseLevelOutOfRange)
    else
      var l := MakeLayout(|sources|, canvas.width, canvas.height);
      var placed := Place(sources, l, rs, canvas, |sources|);
      if level.num > 0 then Success(SaltAndPepper(placed, level, draws)) else Success(placed)
  }

  /** With no noise, a pixel outside every accepted cell of the layout keeps
      the canvas's initial value, and a pixel of accepted cell i holds its
      tile: level zero uses no draw, so every pixel is untouched. */
  lemma CreateTiledNoNoise(sources: seq<Option<ColorImage>>, canvas: GrayImage, level: Level, draws: seq<Draw>, rs: Resizer, x: int, y: int)
    requires DrawsFit(draws, canvas.width, canvas.height) && |draws| >= canvas.width * canvas.height
    requires |sources| > 0 && level.num == 0
    requires 0 <= x < canvas.width && 0 <= y < canvas.height
    ensures CreateTiled(sources, canvas, level, draws, rs).Success?
    ensures var l := MakeLayout(|sources|, canvas.width, canvas.height);
            var r := CreateTiled(sources, canvas, level, draws, rs).value;
            var i := CellOf(l, x, y);
            At(r, x, y) == (if 0 <= i < |sources| && TileAt(sources, l, rs, i).Some?
                            then At(TileAt(sources, l, rs, i).value, x - CellX(l, i), y - CellY(l, i))
                            else At(canvas, x, y))
  {
    CreateTiledPixel(sources, canvas, level, draws, rs, x, y);
  }

  /** At any accepted level, a pixel that none of the used draws selects holds
      what placement left there: the tile of the accepted cell it lies in, or
      the canvas's initial value. */
  lemma CreateTiledPixel(sources: seq<Option<ColorImage>>, canvas: GrayImage, level: Level, draws: seq<Draw>, rs: Resizer, x: int, y: int)
    requires DrawsFit(draws, canvas.width, canvas.height) && |draws| >= canvas.width * canvas.height
    requires |sources| > 0 && InRange(level)
    requires 0 <= x < canvas.width && 0 <= y < canvas.height
    requires Untouched(draws, PixelsToAffect(canvas.width, canvas.height, level), x, y)
    ensures CreateTiled(sources, canvas, level, draws, rs).Success?
    ensures var l := MakeLayout(|sources|, canvas.width, canvas.height);
            var r := CreateTiled(sources, canvas, level, draws, rs).value;
            var i := CellOf(l, x, y);
            At(r, x, y) == (if 0 <= i < |sources| && TileAt(sources, l, rs, i).Some?
                            then At(TileAt(sources, l, rs, i).value, x - CellX(l, i), y - CellY(l, i))
                            else At(canvas, x, y))
  {
    var l := MakeLayout(|sources|, canvas.width, canvas.height);
    PlaceMatchesExpected(sources, l, rs, canvas, |sources|, x, y);
  }

  /** At any accepted level, a used draw that no later used draw overrides
      leaves its salt or pepper value in the result, and every pixel holds
      either what placement left there, 0 or 255. */
  lemma CreateTiledDrawnPixel(sources: seq<Option<ColorImage>>, canvas: GrayImage, level: Level, draws: seq<Draw>, rs: Resizer, k: nat)
    requires DrawsFit(draws, canvas.width, canvas.height) && |draws| >= canvas.width * canvas.height
    requires |sources| > 0 && InRange(level)
    requires k < PixelsToAffect(canvas.width, canvas.height, level)
    requires LastHit(draws, PixelsToAffect(canvas.width, canvas.height, level), k)
    ensures CreateTiled(sources, canvas, level, draws, rs).Success?
    ensures At(CreateTiled(sources, canvas, level, draws, rs).value, draws[k].x, draws[k].y) == DrawValue(draws[k])
  {
    var l := MakeLayout(|sources|, canvas.width, canvas.height);
    var placed := Place(sources, l, rs, canvas, |sources|);
    SaltAndPepperDraw(placed, level, draws, k);
  }

  /** No value other than the placed one, 0 or 255 reaches the result. */
  lemma CreateTiledValues(sources: seq<Option<ColorImage>>, canvas: GrayImage, level: Level, draws: seq<Draw>, rs: Resizer, x: int, y: int)
    requires DrawsFit(draws, canvas.width, canvas.height) && |draws| >= canvas.width * canvas.height
    requires |sources| > 0 && InRange(level)
    requires 0 <= x < canvas.width && 0 <= y < canvas.height
    ensures CreateTiled(sources, canvas, level, draws, rs).Success?
    ensures var l := MakeLayout(|sources|, canvas.width, canvas.height);
            var v := At(CreateTiled(sources, canvas, level, draws, rs).value, x, y);
            v == Expected(sources, l, rs, canvas, |sources|, x, y) || v == 0 || v == 255
  {
    var l := MakeLayout(|sources|, canvas.width, canvas.height);
    var placed := Place(sources, l, rs, canvas, |sources|);
    PlaceMatchesExpected(sources, l, rs, canvas, |sources|, x, y);
    if level.num > 0 {
      SaltAndPepperValues(placed, level, draws, x, y);
    }
  }

  /** With noise, a pixel outside every accepted cell that none of the used
      draws selects still holds the canvas's initial value. */
  lemma CreateTiledBackground(sources: seq<Option<ColorImage>>, canvas: GrayImage, level: Level, draws: seq<Draw>, rs: Resizer, x: int, y: int)
    requires DrawsFit(draws, canvas.width, canvas.height) && |draws| >= canvas.width * canvas.height
    requires |sources| > 0 && InRange(level)
    requires 0 <= x < canvas.width && 0 <= y < canvas.height
    requires var l := MakeLayout(|sources|, canvas.width, canvas.height);
             forall i :: 0 <= i < |sources| && TileAt(sources, l, rs, i).Some? ==> !InCell(l, i, x, y)
    requires Untouched(draws, PixelsToAffect(canvas.width, canvas.height, level), x, y)
    ensures CreateTiled(sources, canvas, level, draws, rs).Success?
    ensures At(CreateTiled(sources, canvas, level, draws, rs).value, x, y) == At(canvas, x, y)
  {
    var l := MakeLayout(|sources|, canvas.width, canvas.height);
    PlacedBackgroundPixel(sources, l, rs, canvas, x, y);
  }

  /** `CreateTiledImageWithJson`: the canvas together with its matrix. */
  function CreateTiledWithMatrix(sources: seq<Option<ColorImage>>, canvas: GrayImage, level: Level, draws: seq<Draw>, rs: Resizer)
    : (r: Result<(GrayImage, seq<Serializer.Row>), TileError>)
    requires DrawsFit(draws, canvas.width, canvas.height) && |draws| >= canvas.width * canvas.height
    ensures r.Failure? <==> |sources| == 0 || !InRange(level)
    ensures r.Success? ==> SameDims(r.value.0, canvas) && |r.value.1| == canvas.height
    ensures r.Success? ==> Serializer.Deserialize(r.value.1, canvas.width) == r.value.0
    ensures r.Failure? ==> CreateTiled(sources, canvas, level, draws, rs) == Failure(r.error)
    ensures r.Success? ==> CreateTiled(sources, canvas, level, draws, rs) == Success(r.value.0)
    ensures r.Success? ==> r.value.1 == Serializer.Serialize(r.value.0)
  {
    match CreateTiled(sources, canvas, level, draws, rs)
    case Failure(e) => Failure(e)
    case Success(img) =>
      Serializer.SerializeRoundTrip(img);
      Success((img, Serializer.Serialize(img)))
  }
}

=== FILE: wrappers.dfy ===
/** Failure-carrying datatypes used across the model. */
module Wrappers {

  /** A value that may be absent; stands for a nullable reference. */
  datatype Option<+T> = None | Some(value: T)

  /** Either a computed value or the error the C# code throws. */
  datatype Result<+R, +E> = Success(value: R) | Failure(error: E)
}
